=== FILE: README.md ===
# Invoicing app: numbering, line items, GST totals and invoice creation

This project models the business rules of a small invoicing web application
as pure Dafny functions and proves properties of them. Its form composes an
invoice from line items, and its `POST /api/create-invoice` route stores it.
The rules are:

- **Invoice numbering.** The next number is `DWPL/<year>/<sequence>`. The
  sequence is the stored-invoice count plus one, zero-padded to four
  characters and never truncated (`numbering.dfy`). The count and the year
  are parameters.
- **Line items.** Each row holds a serial number, a description, a
  quantity, a rate and an amount (`types.dfy`). The form reacts to edits in
  two ways. It recomputes `amount = quantity * rate`, and it renumbers rows
  `1, 2, 3, ...` by position. Here these reactions are the explicit
  functions `RecomputeAmounts` and `Renumber`; `Reactions` is what fires
  after an edit (including which write is kept when both fire), and
  `Settle` is the normal form they aim at. The edits are
  `handleItemChange`, `addItem` and `removeItem` (`line_items.dfy`).
  `handleFormChange` edits the top-level fields (`form.dfy`).
  `handleItemChange` converts numeric input with `Number(text)`, modelled
  over decimal literals in `js_number.dfy`.
- **Totals.** The subtotal is the sum of quantity × rate. The address is
  tested with an ASCII lower-case and substring check (`text.dfy`). If it
  contains `bihar`, CGST and SGST are 9% each. Otherwise IGST is 18%. The
  gross is the sum of all four (`tax.dfy`). Money is Dafny `real` (exact
  rationals).
- **Invoice creation.** The route copies the posted fields into a record
  unchanged. The record's due date is the clock's date plus 15 days, using
  `setDate` overflow over a proleptic Gregorian calendar (`calendar.dfy`).
  The route answers 201 with the stored document, or 400 with the error
  message (`create_invoice.dfy`). The database connection, the body parser,
  the clock and the store are parameters.

Points worth noting about the code, all of which the model follows:

- The subtotal is computed from quantity and rate. It is not the sum of the
  stored `amount` fields. The two agree once the rows are settled
  (`Tax.SubTotalOfDerivedAmounts`).
- An empty item list is not rejected. Its totals are all zero.
- The handlers and the route do not check that descriptions are non-empty
  or that quantities and rates are non-negative. The page's inputs carry
  HTML `required` and `min="0"` attributes (src/app/page.tsx:347,362-363,
  378-379), so a browser refuses to submit such a form before
  `handleSubmit` runs; nothing after that point checks again.
- Past 9999 the sequence simply gets longer (`DWPL/2025/10000`). It does not
  roll over.
- The route takes two separate clock readings (`date` and the base of
  `duedate`). The due date is fifteen days after the second reading. It is
  exactly fifteen days after the issue date when both readings fall on the
  same day, and it is always later than the issue date.

The store's item schema marks `itemName` as required
(src/models/Invoice.ts:23), but the route never sets it
(src/app/api/create-invoice/route.ts:29). So a store that enforces that
schema refuses every record with at least one item, and the route answers
400 with the store's message. In this model the
store is a parameter, so this behaviour is noted here and not modelled.

## Model

| member | source | states |
|---|---|---|
| Decimal.NatToString | src/app/page.tsx:66 | `String(n)` is a non-empty run of digits with no leading zero |
| Decimal.DigitsValueOfNatToString | src/app/page.tsx:66 | reading back the digits `String(n)` wrote gives `n` |
| Decimal.ParseNatToString | src/app/page.tsx:66 | parsing `String(n)` gives back exactly `n` |
| Decimal.NatToStringInjective | src/app/page.tsx:66 | distinct positions get distinct serial numbers: `String(m) == String(n)` iff `m == n` |
| Decimal.NatToStringLength | src/app/page.tsx:33 | `String(n)` has at most `k` digits exactly when `n < 10^k`; this is the boundary where padding stops |
| Decimal.PadStart | src/app/page.tsx:33 | `padStart` never shortens its input, fills to the target width with the pad character, and keeps the input as a suffix |
| Decimal.LeadingZeros | src/app/page.tsx:33 | zeros added in front of a digit string do not change its value |
| Decimal.PaddedRoundTrip | src/app/page.tsx:33 | a zero-padded count reads back as the count |
| Numbering.SequenceText | src/app/page.tsx:33 | the sequence is 4 characters when `count + 1 < 10000` and the unpadded decimal otherwise; either way it reads back as `count + 1` |
| Numbering.SequenceWidthRule | src/app/page.tsx:33 | the sequence is four digits below 10000; from 10000 on it is longer than four and is the plain decimal |
| Numbering.InvoiceNumber | src/app/page.tsx:32-34 | every proposed number parses back as `DWPL/`, the current year and `count + 1` |
| Numbering.InvoiceNumberInjective | src/app/page.tsx:32-34 | two numbers are equal exactly when their counts and their years are equal |
| Numbering.NumberingExamples | src/app/page.tsx:32-34 | count 0 gives `DWPL/2025/0001`, count 41 gives `DWPL/2025/0042`, and count 9999 gives `DWPL/2025/10000` |
| Numbering.ApplyInvoiceCount | src/app/page.tsx:29-43 | after a fetched count the invoice number is the padded `InvoiceNumber(count, year)`, which parses back as the current year and `count + 1`; address, rows and the five totals are kept; a failed fetch also keeps the invoice number |
| Types.BlankItem | src/app/page.tsx:112-119 | the appended row has empty text and zero quantity, rate and amount |
| Types.InitialForm | src/app/page.tsx:8-26 | the form starts with empty number and address, one blank row numbered "1", and zero totals |
| Form.InitialFormSettled | src/app/page.tsx:178-196 | the start/reset state already satisfies the row invariant, so settling leaves it unchanged |
| Form.InitialFormReactions | src/app/page.tsx:8-26 | whatever the previous rows were, the reactions that fire on the initial rows leave them unchanged |
| Form.HandleFormChange | src/app/page.tsx:97-105 | editing a named top-level field changes that field only |
| Form.AddressEditKeepsGross | src/app/page.tsx:145-154 | after an address edit and a recalculation the gross is unchanged |
| LineItems.RecomputeAmounts | src/app/page.tsx:50-59 | each row's amount becomes quantity × rate; serial, description, quantity and rate are kept; the length is kept |
| LineItems.Renumber | src/app/page.tsx:63-72 | the row at position `i` gets serial `String(i + 1)`; every other field and the length are kept |
| LineItems.Settle | src/app/page.tsx:49-73 | the normal form the reactions aim at: every amount derived, every serial positional, the length and the user-entered fields kept |
| LineItems.Reactions | src/app/page.tsx:50-73 | the reactions that fire keep the length and the user-entered fields; a length change makes the serials positional and, because the serial reaction's write is kept, leaves the amounts as they were; at the same length the serials are kept, a quantity or rate change makes the amounts derived, and with no dependency change the list is unchanged |
| LineItems.SettleFixesExactlyWellFormed | src/app/page.tsx:49-73 | `Settle` leaves a list unchanged if and only if it already satisfies the row invariant |
| LineItems.SettleIdempotent | src/app/page.tsx:49-73 | settling twice is the same as settling once |
| LineItems.RenumberWhenDerived | src/app/page.tsx:63-73 | when every amount is already derived, the serial reaction alone settles the list |
| LineItems.RecomputeWhenPositional | src/app/page.tsx:50-60 | when every serial is already positional, the amount reaction alone settles the list |
| LineItems.AddItem | src/app/page.tsx:107-121 | the length grows by one, existing rows are untouched, and the new last row is numbered `String(oldLength + 1)` and blank |
| LineItems.AddItemKeepsWellFormed | src/app/page.tsx:107-121 | appending keeps the row invariant even before any reaction runs |
| LineItems.SpliceStart | src/app/page.tsx:127 | `splice` starts at the index when it is in range, counts negative indexes from the end, starts at 0 below `-len` and at `len` from `len` on |
| LineItems.RemoveItem | src/app/page.tsx:124-133 | with at most one row the list is unchanged; otherwise exactly row `index` is cut out and the rows before and after keep their order; a negative index counts from the end, one below `-len` cuts row 0, and one past the end changes nothing |
| LineItems.RemoveItemKeepsOne | src/app/page.tsx:124-133 | removal never empties a non-empty list and removes at most one row |
| LineItems.RemoveItemTakesOne | src/app/page.tsx:126-127 | the removed list plus the removed row is the original multiset of rows |
| LineItems.RemoveItemShifts | src/app/page.tsx:126-127 | rows before the removed one stay in place, and the rows after it move up one position |
| LineItems.RemoveThenRenumber | src/app/page.tsx:124-133 | after a removal from a settled list the serial reaction alone settles it: numbering from 1 again, amounts still derived |
| LineItems.ReactionsAfterAddItem | src/app/page.tsx:50-73 | after "Add Item" both reactions fire (the length and the quantity/rate key both change); the serial reaction's list is kept, and it is the appended list unchanged |
| LineItems.RemoveItemKeepsDerived | src/app/page.tsx:124-133 | removing a row keeps every remaining amount derived |
| LineItems.ReactionsAfterRemoveItem | src/app/page.tsx:63-73 | after a removal from a well-formed list the reactions that fire give the settled list, which satisfies the row invariant |
| LineItems.ReactionsAfterFieldEdit | src/app/page.tsx:50-60 | an edit keeping every serial and amount is settled by whichever reactions its dependencies fire: the amount reaction when a quantity or rate changed, none otherwise |
| LineItems.ReactionsAfterItemChange | src/app/page.tsx:76-93 | after any description, quantity or rate edit of a well-formed list, the reactions that fire restore the row invariant and give `Settle` of the edited list |
| LineItems.HandleItemChange | src/app/page.tsx:76-93 | only the named field of the row at `index` changes; quantity and rate store `Number(value)`; other rows and fields are unchanged; an index with no row and NaN text are errors, and every other edit succeeds |
| LineItems.QuantityEditSucceeds | src/app/page.tsx:84-85 | a quantity typed as a decimal integer is stored as that number |
| LineItems.SetQuantityThenSettle | src/app/page.tsx:50-54 | after a quantity change and settling, the row's amount is the new quantity × its rate |
| JsNumber.ToNumber | src/app/page.tsx:85 | blank text is 0, and text whose first visible character is not a digit, a sign or a point is NaN |
| JsNumber.ToNumberOfNatString | src/app/page.tsx:85 | `Number(String(n))` is `n` |
| JsNumber.ToNumberOfNegated | src/app/page.tsx:85 | `Number("-" + String(n))` is `-n` |
| JsNumber.ToNumberOfFraction | src/app/page.tsx:85 | `Number("w.f")` is `w + f / 10^len(f)` for digit strings `w` and `f` |
| JsNumber.ToNumberOfBlank | src/app/page.tsx:85 | blank text reads as 0 |
| Text.ToLower | src/app/page.tsx:145 | lower-casing keeps the length and maps `A`–`Z` to `a`–`z`, leaving every other character alone |
| Text.Includes | src/app/page.tsx:145 | `includes` is true exactly when the needle occurs at some position |
| Text.IncludesInContext | src/app/page.tsx:145 | text that contains the needle still contains it once more text is added on either side |
| Tax.Reduce | src/app/page.tsx:139-142 | the left-to-right `reduce` from `acc` equals `acc` plus the reference sum of quantity × rate |
| Tax.SubTotal | src/app/page.tsx:139-142 | the subtotal is the sum over rows of quantity × rate |
| Tax.SubTotalIgnoresAmounts | src/app/page.tsx:139-142 | rows that agree on quantity and rate have the same subtotal, whatever their stored amounts are |
| Tax.SubTotalOfDerivedAmounts | src/app/page.tsx:139-142 | once amounts are derived, the subtotal equals the sum of the stored amounts |
| Tax.SubTotalAddItem | src/app/page.tsx:107-121 | appending a blank row leaves the subtotal unchanged |
| Tax.SubTotalRemoveItem | src/app/page.tsx:124-133 | removing a row lowers the subtotal by exactly that row's quantity × rate |
| Tax.IsHomeState | src/app/page.tsx:145 | the address is in the home state exactly when `bihar` occurs in its lower-case form |
| Tax.IsHomeStateCaseInsensitive | src/app/page.tsx:145 | an address and its lower-case form fall on the same side of the test |
| Tax.ComputeTotals | src/app/page.tsx:135-154 | subtotal = Σ quantity × rate; home state gives CGST = SGST = 9% and IGST = 0; any other address gives CGST = SGST = 0 and IGST = 18%; gross is the sum of the four |
| Tax.GrossIsEighteenPercentMore | src/app/page.tsx:148-154 | the gross is 1.18 × the subtotal on both branches |
| Tax.GrossIndependentOfAddress | src/app/page.tsx:148-154 | two addresses give the same gross and the same total tax for the same rows |
| Tax.TaxHeadsExclusive | src/app/page.tsx:148-152 | CGST+SGST and IGST are never both non-zero; with a non-zero subtotal exactly one is; CGST+SGST is non-zero only for the home state |
| Tax.EmptyItemsTotalZero | src/app/page.tsx:139-154 | with no rows every total is zero, and this is not an error |
| Tax.CalculateAmounts | src/app/page.tsx:157-165 | the form's five totals become the computed ones; the number, the address and the rows are kept |
| Tax.HomeStateExample | src/app/page.tsx:139-154 | rows (2 × 100, 1 × 50) at "Patna, Bihar" give 250, 22.5, 22.5, 0, 295 |
| Tax.InterstateExample | src/app/page.tsx:139-154 | the same rows at "Delhi" give 250, 0, 0, 45, 295 |
| Calendar.Normalize | src/app/api/create-invoice/route.ts:37 | `setDate` overflow always yields a valid calendar date |
| Calendar.NormalizeDayNumber | src/app/api/create-invoice/route.ts:37 | day `dt` of a month lands `dt - 1` days after the month's first day, for any `dt`, across month and year boundaries |
| Calendar.SetDate | src/app/api/create-invoice/route.ts:37 | `d.setDate(dt)` is a valid date `dt - d.day` days away from `d` |
| Calendar.DueDate | src/app/api/create-invoice/route.ts:37 | the due date is a valid date exactly 15 days after the date it is computed from |
| Calendar.BeforeIffDayNumber | src/app/api/create-invoice/route.ts:37 | (year, month, day) order agrees with day-count order on valid dates |
| Calendar.DayNumberInjective | src/app/api/create-invoice/route.ts:37 | distinct valid dates have distinct day counts |
| Calendar.DueDateIsFifteenDaysLater | src/app/api/create-invoice/route.ts:37 | the due date is strictly later, and it is the only valid date fifteen days on |
| Calendar.SetDateWithinMonth | src/app/api/create-invoice/route.ts:37 | setting a day that exists in the month changes only the day |
| Calendar.DueDateExamples | src/app/api/create-invoice/route.ts:37 | Jan 20 → Feb 4; Dec 20 → Jan 4 of the next year; Feb 20, 2024 → Mar 6; Feb 20, 2025 → Mar 7 |
| CreateInvoice.CopyItem | src/app/api/create-invoice/route.ts:23-30 | a stored item takes the posted serial, description, quantity, rate and amount |
| CreateInvoice.CopyItems | src/app/api/create-invoice/route.ts:23-30 | stored items have the posted length and order, and each has the posted five fields |
| CreateInvoice.BuildRecord | src/app/api/create-invoice/route.ts:15-38 | number, address and all five totals are copied verbatim, items are copied, `date` is the first clock reading, and `duedate` is 15 days after the second |
| CreateInvoice.ErrorResponse | src/app/api/create-invoice/route.ts:53-71 | status 400, `success: false`, no data; the thrown error's message, or "An unknown error occurred" for a non-Error |
| CreateInvoice.Post | src/app/api/create-invoice/route.ts:7-72 | the status is 201 or 400; it is 201 iff connection, body, item array and save all succeed; success carries the built record and its store stamp; each failing step yields its own 400 |
| CreateInvoice.DueDateFromIssueDate | src/app/api/create-invoice/route.ts:15-37 | with both clock readings on the same day, the due date is the issue date plus 15 days and is later |
| CreateInvoice.DueDateAfterIssueDate | src/app/api/create-invoice/route.ts:15-37 | because the clock does not run backwards, the due date is always after the issue date |
| CreateInvoice.StoredRecordRoundTrip | src/app/api/create-invoice/route.ts:20-35 | the form fields of the stored record equal the posted form |
| CreateInvoice.TotalsNotRecomputed | src/app/api/create-invoice/route.ts:31-35 | a posted subtotal that disagrees with the rows is stored as posted |

## Left out

- src/lib/db.ts, src/app/api/invoices/route.ts and src/app/api/invoice-count/route.ts are database plumbing. The connection becomes an `Outcome` parameter of `CreateInvoice.Post`, and the count becomes a parameter of `Numbering.ApplyInvoiceCount`.
- src/models/Invoice.ts: the store's schema casting, its validation and the uniqueness of `invoiceNumber` all live in the database library. The store is the `save` parameter of `CreateInvoice.Post`. The route stores `duedate` as the millisecond number `setDate` returns, which the schema casts to a date; `CreateInvoice.BuildRecord` stores the `Calendar.Date` directly.
- src/app/invoice-listing/page.tsx and src/app/components/InvoicePrintPage.tsx are presentation only. This includes table filtering, the grand-total display, `toFixed(2)` and date formatting.
- `handleSubmit`, the axios calls, the alerts, and the 300 ms `setTimeout` before `calculateAmounts` writes the totals are asynchronous UI behaviour. The form can post before the delayed totals land. That is stale state in an asynchronous handler, and it is not modelled.
- The count-then-increment numbering race is a concurrency issue. It sits outside these pure rules.
- Tax.ComputeTotals: money is exact `real`. The IEEE double rounding of `0.09`, `0.18` and the sums is not modelled.
- LineItems.HandleItemChange: where `Number(value)` would be NaN, the model reports `NotANumber` and changes nothing. JavaScript stores NaN instead, but NaN is not in the model's number domain.
- LineItems.HandleItemChange: the field `amount` is not editable through the model. The form shows it read-only and never passes it to the handler. Storing text into a numeric field cannot be represented with typed rows.
- LineItems.HandleItemChange: the page mutates the shared row object in place. The model returns a new list, so that aliasing is not modelled.
- LineItems.Reactions: the amount reaction's dependency is the joined text `quantity-rate,…`; the model compares the sequence of (quantity, rate) pairs instead. That treats two lists alike exactly when their joined texts agree, provided `String` is one-to-one on the numbers involved (it maps `-0` and `0` to the same text, and both are the same real here). Re-renders are modelled as one step: the reactions that fire run to completion before the next user event.
- JsNumber.ToNumber: hexadecimal, octal and binary literals, `Infinity`, numeric separators and non-ASCII white space are read as `None`. JavaScript gives a number for some of these. A literal too large for a double, such as `1e400`, reads as its exact value, where JavaScript gives `Infinity`.
- Text.ToLower covers ASCII letters only. It does not apply Unicode case mapping.
- The form's HTML constraint validation (`required` and `min="0"` on its inputs) is browser behaviour and is not modelled.
- Decimal.NatToString is exact for every natural. JavaScript's `String(n)` switches to exponent form from 10^21, and `count + 1` loses integer precision above 2^53; neither limit is modelled.
- Calendar.DueDate works on calendar dates only. The time of day, the local time zone and daylight-saving transitions are not modelled.
- Numbering.InvoiceNumber takes the year as a natural number, so years before year 0 are not modelled.
- CreateInvoice.Post: the request body is already typed. Missing or ill-typed scalar fields are left to the store's casting and validation, and only a missing item array is modelled as an error.

=== FILE: calendar.dfy ===
/**
 * Calendar dates in the proleptic Gregorian calendar, and JavaScript's
 * `Date.prototype.setDate`, which accepts any day number and rolls surplus
 * or missing days over into later or earlier months and years.
 */
module Calendar {

  datatype Date = Date(year: int, month: int, day: int)

  predicate IsLeapYear(y: int) {
    y % 4 == 0 && (y % 100 != 0 || y % 400 == 0)
  }

  function DaysInMonth(y: int, m: int): (n: nat)
    requires 1 <= m <= 12
    ensures 28 <= n <= 31
  {
    if m == 2 then (if IsLeapYear(y) then 29 else 28)
    else if m == 4 || m == 6 || m == 9 || m == 11 then 30
    else 31
  }

  function DaysInYear(y: int): nat {
    if IsLeapYear(y) then 366 else 365
  }

  predicate Valid(d: Date) {
    1 <= d.month <= 12 && 1 <= d.day <= DaysInMonth(d.year, d.month)
  }

  /** Days in the months of year `y` before month `m`. */
  function DaysBeforeMonth(y: int, m: int): nat
    requires 1 <= m <= 12
  {
    var common := [0, 31, 59, 90, 120, 151, 181, 212, 243, 273, 304, 334][m - 1];
    if m > 2 && IsLeapYear(y) then common + 1 else common
  }

  /** Days from 1 January of year 0 to 1 January of year `y` (negative before year 0). */
  function DaysBeforeYear(y: int): int
    decreases if y < 0 then -y else y
  {
    if y == 0 then 0
    else if y > 0 then DaysBeforeYear(y - 1) + DaysInYear(y - 1)
    else DaysBeforeYear(y + 1) - DaysInYear(y)
  }

  /** The position of a date on a line of consecutive days. */
  function DayNumber(d: Date): int
    requires Valid(d)
  {
    DaysBeforeYear(d.year) + DaysBeforeMonth(d.year, d.month) + d.day - 1
  }

  /** The day number of the first day of month `m` of year `y`. */
  function MonthStart(y: int, m: int): int
    requires 1 <= m <= 12
  {
    DaysBeforeYear(y) + DaysBeforeMonth(y, m)
  }

  lemma YearStep(y: int)
    ensures DaysBeforeYear(y + 1) == DaysBeforeYear(y) + DaysInYear(y)
  {
  }

  lemma MonthsFillYear(y: int, m: int)
    requires 1 <= m <= 12
    ensures DaysBeforeMonth(y, m) + DaysInMonth(y, m) == (if m < 12 then DaysBeforeMonth(y, m + 1) else DaysInYear(y))
  {
  }

  /** The month after month `m` of year `y` starts exactly `DaysInMonth(y, m)` days later. */
  lemma NextMonthStart(y: int, m: int)
    requires 1 <= m <= 12
    ensures m < 12 ==> MonthStart(y, m + 1) == MonthStart(y, m) + DaysInMonth(y, m)
    ensures m == 12 ==> MonthStart(y + 1, 1) == MonthStart(y, m) + DaysInMonth(y, m)
  {
    MonthsFillYear(y, m);
    YearStep(y);
  }

  /**
   * `new Date(y, m, day).setDate(dt)`: day `dt` counted from the first of
   * month `m` of year `y`, where days past the month's end continue into the
   * following months and days below 1 go back into the preceding ones.
   */
  function Normalize(y: int, m: int, dt: int): (r: Date)
    requires 1 <= m <= 12
    ensures Valid(r)
    decreases (if dt < 1 then 1 - dt else 0), (if dt < 1 then 0 else dt)
  {
    if dt < 1 then
      var (py, pm) := if m == 1 then (y - 1, 12) else (y, m - 1);
      Normalize(py, pm, dt + DaysInMonth(py, pm))
    else if dt <= DaysInMonth(y, m) then Date(y, m, dt)
    else
      var (ny, nm) := if m == 12 then (y + 1, 1) else (y, m + 1);
      Normalize(ny, nm, dt - DaysInMonth(y, m))
  }

  /** The normalised date is `dt - 1` days after the first of the month, whatever `dt` is. */
  lemma {:induction false} NormalizeDayNumber(y: int, m: int, dt: int)
    requires 1 <= m <= 12
    ensures DayNumber(Normalize(y, m, dt)) == MonthStart(y, m) + dt - 1
    decreases (if dt < 1 then 1 - dt else 0), (if dt < 1 then 0 else dt)
  {
    if dt < 1 {
      var (py, pm) := if m == 1 then (y - 1, 12) else (y, m - 1);
      NormalizeDayNumber(py, pm, dt + DaysInMonth(py, pm));
      NextMonthStart(py, pm);
    } else if dt <= DaysInMonth(y, m) {
    } else {
      var (ny, nm) := if m == 12 then (y + 1, 1) else (y, m + 1);
      NormalizeDayNumber(ny, nm, dt - DaysInMonth(y, m));
      NextMonthStart(y, m);
    }
  }

  /** `d.setDate(dt)` keeps the year and month of `d` as the base and rolls over from there. */
  function SetDate(d: Date, dt: int): (r: Date)
    requires Valid(d)
    ensures Valid(r)
    ensures DayNumber(r) == DayNumber(d) - d.day + dt
  {
    NormalizeDayNumber(d.year, d.month, dt);
    Normalize(d.year, d.month, dt)
  }

  /** Number of days between issue and due date. */
  const PaymentTermDays: nat := 15

  /** `setDate(getDate() + 15)`: the due date of an invoice issued on `d`. */
  function DueDate(d: Date): (r: Date)
    requires Valid(d)
    ensures Valid(r)
    ensures DayNumber(r) == DayNumber(d) + PaymentTermDays
  {
    SetDate(d, d.day + PaymentTermDays)
  }

  /** Calendar order: year first, then month, then day. */
  predicate Before(a: Date, b: Date) {
    a.year < b.year
    || (a.year == b.year && a.month < b.month)
    || (a.year == b.year && a.month == b.month && a.day < b.day)
  }

  lemma {:induction false} DaysBeforeYearMonotone(a: int, b: int)
    requires a < b
    ensures DaysBeforeYear(a + 1) <= DaysBeforeYear(b)
    decreases b - a
  {
    if a + 1 < b {
      DaysBeforeYearMonotone(a, b - 1);
      YearStep(b - 1);
    }
  }

  lemma {:induction false} DaysBeforeMonthMonotone(y: int, a: int, b: int)
    requires 1 <= a < b <= 12
    ensures DaysBeforeMonth(y, a) + DaysInMonth(y, a) <= DaysBeforeMonth(y, b)
    decreases b - a
  {
    MonthsFillYear(y, a);
    if a + 1 < b {
      DaysBeforeMonthMonotone(y, a + 1, b);
    }
  }

  lemma DayNumberInYear(d: Date)
    requires Valid(d)
    ensures DaysBeforeYear(d.year) <= DayNumber(d) < DaysBeforeYear(d.year + 1)
  {
    YearStep(d.year);
    MonthsFillYear(d.year, d.month);
    if d.month < 12 {
      DaysBeforeMonthMonotone(d.year, d.month, 12);
      MonthsFillYear(d.year, 12);
    }
  }

  lemma BeforeHasSmallerDayNumber(a: Date, b: Date)
    requires Valid(a) && Valid(b) && Before(a, b)
    ensures DayNumber(a) < DayNumber(b)
  {
    if a.year < b.year {
      DayNumberInYear(a);
      DayNumberInYear(b);
      DaysBeforeYearMonotone(a.year, b.year);
    } else if a.month < b.month {
      DaysBeforeMonthMonotone(a.year, a.month, b.month);
    }
  }

  /** Calendar order and day-number order agree on valid dates. */
  lemma BeforeIffDayNumber(a: Date, b: Date)
    requires Valid(a) && Valid(b)
    ensures Before(a, b) <==> DayNumber(a) < DayNumber(b)
  {
    if Before(a, b) {
      BeforeHasSmallerDayNumber(a, b);
    } else if Before(b, a) {
      BeforeHasSmallerDayNumber(b, a);
    } else {
      assert a == b;
    }
  }

  /** Distinct valid dates have distinct day numbers. */
  lemma DayNumberInjective(a: Date, b: Date)
    requires Valid(a) && Valid(b)
    ensures DayNumber(a) == DayNumber(b) <==> a == b
  {
    BeforeIffDayNumber(a, b);
    BeforeIffDayNumber(b, a);
    if !Before(a, b) && !Before(b, a) {
      assert a == b;
    }
  }

  /** The due date is strictly later, and it is the only valid date fifteen days on. */
  lemma DueDateIsFifteenDaysLater(d: Date, e: Date)
    requires Valid(d) && Valid(e)
    ensures Before(d, DueDate(d))
    ensures DayNumber(e) == DayNumber(d) + 15 <==> e == DueDate(d)
  {
    BeforeIffDayNumber(d, DueDate(d));
    DayNumberInjective(e, DueDate(d));
  }

  /** Setting a day inside the current month just changes the day. */
  lemma SetDateWithinMonth(d: Date, dt: int)
    requires Valid(d) && 1 <= dt <= DaysInMonth(d.year, d.month)
    ensures SetDate(d, dt) == Date(d.year, d.month, dt)
  {
  }

  /** Rollover into the next month, into the next year, and across a leap-year February. */
  lemma DueDateExamples()
    ensures DueDate(Date(2025, 1, 20)) == Date(2025, 2, 4)
    ensures DueDate(Date(2025, 12, 20)) == Date(2026, 1, 4)
    ensures DueDate(Date(2024, 2, 20)) == Date(2024, 3, 6)
    ensures DueDate(Date(2025, 2, 20)) == Date(2025, 3, 7)
  {
    assert Normalize(2025, 12, 35) == Normalize(2026, 1, 4);
    assert IsLeapYear(2024) && !IsLeapYear(2025);
    assert Normalize(2024, 2, 35) == Normalize(2024, 3, 6);
    assert Normalize(2025, 2, 35) == Normalize(2025, 3, 7);
  }
}

=== FILE: create_invoice.dfy ===
/**
 * The `POST /api/create-invoice` route: it copies the posted fields into a
 * new invoice record, stamps the issue date and a due date fifteen days on,
 * hands the record to the store, and answers 201 with the stored document or
 * 400 with the error message. The database connection, the request body
 * parser, the clock and the store are parameters.
 */
module CreateInvoice {
  import opened Wrappers
  import opened Types
  import Calendar
  import Tax

  /** A value thrown inside the route's `try` block: an `Error` object, or anything else. */
  datatype Thrown = ErrorObject(message: string) | OtherValue

  /** An item as posted; it may carry an `itemName` the route does not read. */
  datatype RequestItem = RequestItem(
    serialNumber: string,
    description: string,
    quantity: real,
    rate: real,
    amount: real,
    itemName: Option<string>)

  /** The parsed request body; `items` is `None` when the body has no item array. */
  datatype RequestBody = RequestBody(
    invoiceNumber: string,
    address: string,
    items: Option<seq<RequestItem>>,
    subTotal: real,
    cgst: real,
    sgst: real,
    igst: real,
    grossAmount: real)

  /** The invoice document the route builds. */
  datatype InvoiceRecord = InvoiceRecord(
    invoiceNumber: string,
    address: string,
    items: seq<Item>,
    subTotal: real,
    cgst: real,
    sgst: real,
    igst: real,
    grossAmount: real,
    date: Calendar.Date,
    duedate: Calendar.Date)

  /** What the store adds when it saves a record: its key and its timestamps. */
  datatype StoreStamp = StoreStamp(id: string, createdAt: int, updatedAt: int)

  datatype StoredInvoice = StoredInvoice(record: InvoiceRecord, stamp: StoreStamp)

  /** The JSON answer: `success`, and either `data` or `error`. */
  datatype ResponseBody = ResponseBody(success: bool, data: Option<StoredInvoice>, error: Option<string>)

  datatype Response = Response(status: int, body: ResponseBody)

  const Created: int := 201
  const BadRequest: int := 400

  /** What the engine reports when the body has no item array and `.map` is read from `undefined`. */
  const MissingItemsMessage: string := "Cannot read properties of undefined (reading 'map')"
  const UnknownErrorMessage: string := "An unknown error occurred"

  /** The posted item's five fields, and nothing else, become the stored item. */
  function CopyItem(ri: RequestItem): (it: Item)
    ensures it.serialNumber == ri.serialNumber && it.description == ri.description
    ensures it.quantity == ri.quantity && it.rate == ri.rate && it.amount == ri.amount
  {
    Item(ri.serialNumber, ri.description, ri.quantity, ri.rate, ri.amount)
  }

  /** `data.items.map(...)`: same length, same order, each item copied field by field. */
  function CopyItems(items: seq<RequestItem>): (r: seq<Item>)
    ensures |r| == |items|
    ensures forall i :: 0 <= i < |items| ==>
      r[i].serialNumber == items[i].serialNumber
      && r[i].description == items[i].description
      && r[i].quantity == items[i].quantity
      && r[i].rate == items[i].rate
      && r[i].amount == items[i].amount
  {
    seq(|items|, i requires 0 <= i < |items| => CopyItem(items[i]))
  }

  /**
   * The record `new Invoice({...})` is given. `issued` and `dueClock` are the
   * two separate readings of the clock the route takes; the due date is
   * fifteen days after the second.
   */
  function BuildRecord(body: RequestBody, items: seq<RequestItem>, issued: Calendar.Date, dueClock: Calendar.Date)
    : (rec: InvoiceRecord)
    requires Calendar.Valid(issued) && Calendar.Valid(dueClock)
    ensures rec.invoiceNumber == body.invoiceNumber && rec.address == body.address
    ensures rec.subTotal == body.subTotal && rec.cgst == body.cgst && rec.sgst == body.sgst
    ensures rec.igst == body.igst && rec.grossAmount == body.grossAmount
    ensures rec.items == CopyItems(items)
    ensures rec.date == issued
    ensures Calendar.Valid(rec.duedate)
    ensures Calendar.DayNumber(rec.duedate) == Calendar.DayNumber(dueClock) + 15
  {
    InvoiceRecord(
      body.invoiceNumber, body.address, CopyItems(items),
      body.subTotal, body.cgst, body.sgst, body.igst, body.grossAmount,
      issued, Calendar.DueDate(dueClock))
  }

  /** The `catch` block: status 400, `success: false`, and the error's message when it has one. */
  function ErrorResponse(e: Thrown): (r: Response)
    ensures r.status == BadRequest && !r.body.success && r.body.data.None?
    ensures e.ErrorObject? ==> r.body.error == Some(e.message)
    ensures e.OtherValue? ==> r.body.error == Some(UnknownErrorMessage)
  {
    var message := match e case ErrorObject(m) => m case OtherValue => UnknownErrorMessage;
    Response(BadRequest, ResponseBody(false, None, Some(message)))
  }

  /** The request's steps all succeed: connection, body, item array and save. */
  predicate AllStepsSucceed(
    connect: Outcome<Thrown>, parsed: Result<RequestBody, Thrown>,
    issued: Calendar.Date, dueClock: Calendar.Date,
    save: InvoiceRecord -> Result<StoreStamp, Thrown>)
    requires Calendar.Valid(issued) && Calendar.Valid(dueClock)
  {
    && connect.Pass?
    && parsed.Success?
    && parsed.value.items.Some?
    && save(BuildRecord(parsed.value, parsed.value.items.value, issued, dueClock)).Success?
  }

  /** `POST`: build the record, save it, and answer. */
  function Post(
    connect: Outcome<Thrown>, parsed: Result<RequestBody, Thrown>,
    issued: Calendar.Date, dueClock: Calendar.Date,
    save: InvoiceRecord -> Result<StoreStamp, Thrown>)
    : (r: Response)
    requires Calendar.Valid(issued) && Calendar.Valid(dueClock)
    ensures r.status == Created || r.status == BadRequest
    ensures r.status == Created <==> r.body.success
    ensures r.status == Created <==> AllStepsSucceed(connect, parsed, issued, dueClock, save)
    ensures r.body.success ==>
      && r.body.error.None? && r.body.data.Some?
      && r.body.data.value.record == BuildRecord(parsed.value, parsed.value.items.value, issued, dueClock)
      && Success(r.body.data.value.stamp) == save(r.body.data.value.record)
    ensures !r.body.success ==> r.body.data.None? && r.body.error.Some?
    ensures connect.Fail? ==> r == ErrorResponse(connect.error)
    ensures connect.Pass? && parsed.Failure? ==> r == ErrorResponse(parsed.error)
    ensures connect.Pass? && parsed.Success? && parsed.value.items.None? ==>
      r == ErrorResponse(ErrorObject(MissingItemsMessage))
    ensures
      && connect.Pass? && parsed.Success? && parsed.value.items.Some?
      && save(BuildRecord(parsed.value, parsed.value.items.value, issued, dueClock)).Failure?
      ==> r == ErrorResponse(save(BuildRecord(parsed.value, parsed.value.items.value, issued, dueClock)).error)
  {
    match connect
    case Fail(e) => ErrorResponse(e)
    case Pass =>
      match parsed
      case Failure(e) => ErrorResponse(e)
      case Success(body) =>
        match body.items
        case None => ErrorResponse(ErrorObject(MissingItemsMessage))
        case Some(items) =>
          var rec := BuildRecord(body, items, issued, dueClock);
          match save(rec)
          case Failure(e) => ErrorResponse(e)
          case Success(stamp) =>
            Response(Created, ResponseBody(true, Some(StoredInvoice(rec, stamp)), None))
  }

  /** When both clock readings fall on the same day, the due date is that day plus fifteen, and later. */
  lemma DueDateFromIssueDate(body: RequestBody, items: seq<RequestItem>, issued: Calendar.Date)
    requires Calendar.Valid(issued)
    ensures var rec := BuildRecord(body, items, issued, issued);
      Calendar.DayNumber(rec.duedate) == Calendar.DayNumber(rec.date) + 15
      && Calendar.Before(rec.date, rec.duedate)
  {
    var rec := BuildRecord(body, items, issued, issued);
    Calendar.BeforeIffDayNumber(rec.date, rec.duedate);
  }

  /** The clock never runs backwards, so the due date is always after the issue date. */
  lemma DueDateAfterIssueDate(body: RequestBody, items: seq<RequestItem>, issued: Calendar.Date, dueClock: Calendar.Date)
    requires Calendar.Valid(issued) && Calendar.Valid(dueClock)
    requires !Calendar.Before(dueClock, issued)
    ensures Calendar.Before(issued, BuildRecord(body, items, issued, dueClock).duedate)
  {
    var rec := BuildRecord(body, items, issued, dueClock);
    Calendar.BeforeIffDayNumber(dueClock, issued);
    Calendar.BeforeIffDayNumber(issued, rec.duedate);
  }

  /** The body the form posts: its state, with each item as a JSON object without `itemName`. */
  function RequestOf(form: Invoice): (b: RequestBody)
    ensures b.items.Some? && |b.items.value| == |form.items|
  {
    RequestBody(
      form.invoiceNumber, form.address,
      Some(seq(|form.items|, i requires 0 <= i < |form.items| =>
        var it := form.items[i];
        RequestItem(it.serialNumber, it.description, it.quantity, it.rate, it.amount, None))),
      form.subTotal, form.cgst, form.sgst, form.igst, form.grossAmount)
  }

  /** The form fields of a stored record. */
  function FormOf(rec: InvoiceRecord): Invoice {
    Invoice(rec.invoiceNumber, rec.address, rec.items, rec.subTotal, rec.cgst, rec.sgst, rec.igst, rec.grossAmount)
  }

  /** What the form posts is stored unchanged: reading the form fields back gives the form. */
  lemma StoredRecordRoundTrip(form: Invoice, issued: Calendar.Date, dueClock: Calendar.Date)
    requires Calendar.Valid(issued) && Calendar.Valid(dueClock)
    ensures var b := RequestOf(form);
      FormOf(BuildRecord(b, b.items.value, issued, dueClock)) == form
  {
    var b := RequestOf(form);
    var rec := BuildRecord(b, b.items.value, issued, dueClock);
    assert rec.items == form.items;
  }

  /** The route trusts the posted totals: a body whose subtotal disagrees with its rows is stored as posted. */
  lemma TotalsNotRecomputed(issued: Calendar.Date)
    requires Calendar.Valid(issued)
    ensures var items := [RequestItem("1", "a", 2.0, 100.0, 200.0, None)];
      var b := RequestBody("DWPL/2025/0001", "Patna", Some(items), 1.0, 0.0, 0.0, 0.0, 1.0);
      var rec := BuildRecord(b, items, issued, issued);
      rec.subTotal == 1.0 && Tax.SubTotal(rec.items) == 200.0
  {
    var items := [RequestItem("1", "a", 2.0, 100.0, 200.0, None)];
    var b := RequestBody("DWPL/2025/0001", "Patna", Some(items), 1.0, 0.0, 0.0, 0.0, 1.0);
    var rec := BuildRecord(b, items, issued, issued);
    assert rec.items == [Item("1", "a", 2.0, 100.0, 200.0)];
  }
}

=== FILE: decimal.dfy ===
/**
 * Decimal digit strings: JavaScript's `String(n)` for non-negative integers,
 * the inverse parse, and `padStart` with a one-character pad.
 */
module Decimal {
  import opened Wrappers

  predicate IsDigit(c: char) {
    '0' <= c <= '9'
  }

  predicate AllDigits(s: string) {
    forall i :: 0 <= i < |s| ==> IsDigit(s[i])
  }

  function DigitChar(d: nat): (c: char)
    requires d < 10
    ensures IsDigit(c)
  {
    ['0', '1', '2', '3', '4', '5', '6', '7', '8', '9'][d]
  }

  function DigitValue(c: char): (d: nat)
    requires IsDigit(c)
    ensures d < 10
  {
    (c as int - '0' as int)
  }

  lemma DigitRoundTrip(d: nat)
    requires d < 10
    ensures DigitValue(DigitChar(d)) == d
  {
  }

  function Pow10(k: nat): (p: nat)
    ensures p >= 1
  {
    if k == 0 then 1 else 10 * Pow10(k - 1)
  }

  /** `String(n)` for a non-negative integer: shortest decimal, no leading zero. */
  function NatToString(n: nat): (s: string)
    ensures |s| >= 1 && AllDigits(s)
    ensures |s| > 1 ==> s[0] != '0'
  {
    if n < 10 then [DigitChar(n)] else NatToString(n / 10) + [DigitChar(n % 10)]
  }

  /** The number a string of decimal digits denotes (leading zeros allowed). */
  function DigitsValue(s: string): nat
    requires AllDigits(s)
  {
    if s == [] then 0 else 10 * DigitsValue(s[..|s| - 1]) + DigitValue(s[|s| - 1])
  }

  /** Reads a non-empty run of decimal digits; anything else is refused. */
  function ParseNat(s: string): (r: Option<nat>)
    ensures r.Some? <==> |s| >= 1 && AllDigits(s)
  {
    if |s| >= 1 && AllDigits(s) then Some(DigitsValue(s)) else None
  }

  /** Reading back what `NatToString` wrote gives the original number. */
  lemma {:induction false} DigitsValueOfNatToString(n: nat)
    ensures DigitsValue(NatToString(n)) == n
  {
    if n >= 10 {
      var s := NatToString(n);
      DigitsValueOfNatToString(n / 10);
      assert s[..|s| - 1] == NatToString(n / 10);
      DigitRoundTrip(n % 10);
    } else {
      DigitRoundTrip(n);
    }
  }

  lemma ParseNatToString(n: nat)
    ensures ParseNat(NatToString(n)) == Some(n)
  {
    DigitsValueOfNatToString(n);
  }

  /** `String` is injective on non-negative integers. */
  lemma NatToStringInjective(m: nat, n: nat)
    ensures NatToString(m) == NatToString(n) <==> m == n
  {
    if NatToString(m) == NatToString(n) {
      DigitsValueOfNatToString(m);
      DigitsValueOfNatToString(n);
    }
  }

  /** `String(n)` has at most `k` digits exactly when `n < 10^k`. */
  lemma {:induction false} NatToStringLength(n: nat, k: nat)
    requires k >= 1
    ensures |NatToString(n)| <= k <==> n < Pow10(k)
  {
    if n >= 10 {
      if k == 1 {
      } else {
        NatToStringLength(n / 10, k - 1);
      }
    }
  }

  function Repeat(c: char, k: nat): (s: string)
    ensures |s| == k
    ensures forall i :: 0 <= i < k ==> s[i] == c
  {
    if k == 0 then [] else [c] + Repeat(c, k - 1)
  }

  /**
   * JavaScript `s.padStart(width, pad)` with a one-character pad: fills on the
   * left up to `width` characters and never shortens `s`.
   */
  function PadStart(s: string, width: nat, pad: char): (r: string)
    ensures |s| >= width ==> r == s
    ensures |s| < width ==> |r| == width
    ensures r[|r| - |s|..] == s
    ensures forall i :: 0 <= i < |r| - |s| ==> r[i] == pad
  {
    if |s| >= width then s else Repeat(pad, width - |s|) + s
  }

  /** Leading zeros do not change the value of a digit string. */
  lemma {:induction false} LeadingZeros(k: nat, s: string)
    requires AllDigits(s)
    ensures AllDigits(Repeat('0', k) + s)
    ensures DigitsValue(Repeat('0', k) + s) == DigitsValue(s)
  {
    var t := Repeat('0', k) + s;
    assert forall i :: 0 <= i < |t| ==> IsDigit(t[i]) by {
      forall i | 0 <= i < |t| ensures IsDigit(t[i]) {
        if i >= k { assert t[i] == s[i - k]; }
      }
    }
    if s == [] {
      LeadingZerosOnly(k);
      assert t == Repeat('0', k);
    } else {
      var s' := s[..|s| - 1];
      LeadingZeros(k, s');
      assert t[..|t| - 1] == Repeat('0', k) + s';
    }
  }

  lemma {:induction false} LeadingZerosOnly(k: nat)
    ensures AllDigits(Repeat('0', k))
    ensures DigitsValue(Repeat('0', k)) == 0
  {
    if k > 0 {
      var z := Repeat('0', k);
      LeadingZerosOnly(k - 1);
      assert z[..k - 1] == Repeat('0', k - 1);
    }
  }

  /** Zero-padding a number's decimal form and reading it back gives the number. */
  lemma PaddedRoundTrip(n: nat, width: nat)
    ensures ParseNat(PadStart(NatToString(n), width, '0')) == Some(n)
  {
    var s := NatToString(n);
    DigitsValueOfNatToString(n);
    if |s| < width {
      var p := PadStart(s, width, '0');
      assert p == Repeat('0', width - |s|) + s;
      LeadingZeros(width - |s|, s);
      assert ParseNat(p) == Some(DigitsValue(p));
    } else {
      assert PadStart(s, width, '0') == s;
      assert ParseNat(s) == Some(DigitsValue(s));
    }
  }
}

=== FILE: form.dfy ===
/** Edits to the invoice form's top-level fields, and how they interact with the totals. */
module Form {
  import opened Decimal
  import opened Types
  import LineItems
  import Tax

  /** The top-level inputs of the form, by their `name` attribute. */
  datatype FormField = InvoiceNumberField | AddressField

  /** `handleFormChange`: the named field takes the typed value; nothing else changes. */
  function HandleFormChange(form: Invoice, name: FormField, value: string): (r: Invoice)
    ensures name == InvoiceNumberField ==> r.invoiceNumber == value && r.address == form.address
    ensures name == AddressField ==> r.address == value && r.invoiceNumber == form.invoiceNumber
    ensures r.items == form.items
    ensures r.subTotal == form.subTotal && r.cgst == form.cgst && r.sgst == form.sgst
    ensures r.igst == form.igst && r.grossAmount == form.grossAmount
  {
    match name
    case InvoiceNumberField => form.(invoiceNumber := value)
    case AddressField => form.(address := value)
  }

  /** Changing the address and recalculating moves tax between heads but leaves the gross alone. */
  lemma AddressEditKeepsGross(form: Invoice, address: string)
    ensures Tax.CalculateAmounts(HandleFormChange(form, AddressField, address)).grossAmount
         == Tax.CalculateAmounts(form).grossAmount
  {
    Tax.GrossIndependentOfAddress(form.items, address, form.address);
  }

  /** The first render of the form leaves its rows as they are: they are already numbered and priced. */
  lemma InitialFormReactions(before: seq<Item>)
    ensures LineItems.Reactions(before, InitialForm().items) == InitialForm().items
  {
    assert NatToString(1) == "1";
  }

  /** The form starts, and restarts after a submission, with its rows already settled. */
  lemma InitialFormSettled()
    ensures LineItems.WellFormed(InitialForm().items)
    ensures LineItems.Settle(InitialForm().items) == InitialForm().items
  {
    assert NatToString(1) == "1";
    LineItems.SettleFixesExactlyWellFormed(InitialForm().items);
  }
}

=== FILE: js_number.dfy ===
/**
 * JavaScript's `Number(text)` on strings, restricted to decimal literals:
 * surrounding white space is ignored, the empty string is 0, and an optional
 * sign, digits with an optional fraction, and an optional exponent are read.
 * `None` stands for a text that is not such a literal (JavaScript gives NaN
 * there). Values are exact, so a literal beyond the double range keeps its
 * value where JavaScript gives `Infinity`.
 */
module JsNumber {
  import opened Wrappers
  import opened Decimal
  import opened Text

  /** The ASCII white-space characters `Number` strips: space, TAB, LF, VT, FF, CR. */
  predicate IsWhite(c: char) {
    c == ' ' || 9 <= c as int <= 13
  }

  function TrimStart(s: string): (r: string)
    ensures |r| <= |s| && r == s[|s| - |r|..]
    ensures r != [] ==> !IsWhite(r[0])
  {
    if s != [] && IsWhite(s[0]) then TrimStart(s[1..]) else s
  }

  function TrimEnd(s: string): (r: string)
    ensures |r| <= |s| && r == s[..|r|]
    ensures r != [] ==> !IsWhite(r[|r| - 1])
  {
    if s != [] && IsWhite(s[|s| - 1]) then TrimEnd(s[..|s| - 1]) else s
  }

  function Trim(s: string): string {
    TrimEnd(TrimStart(s))
  }

  /** Position of the first exponent mark `e` or `E`, or `|s|` when there is none. */
  function IndexOfExponent(s: string): (k: nat)
    ensures k <= |s|
    ensures k < |s| ==> s[k] == 'e' || s[k] == 'E'
    ensures forall i :: 0 <= i < k ==> s[i] != 'e' && s[i] != 'E'
  {
    if s == [] then 0 else if s[0] == 'e' || s[0] == 'E' then 0 else 1 + IndexOfExponent(s[1..])
  }

  function Scale(x: int): (p: real)
    ensures p > 0.0
  {
    if x >= 0 then Pow10(x) as real else 1.0 / Pow10(-x) as real
  }

  /** The value of the decimal `whole.frac`. */
  function PointValue(whole: string, frac: string): real
    requires AllDigits(whole) && AllDigits(frac)
  {
    DigitsValue(whole) as real + DigitsValue(frac) as real / Pow10(|frac|) as real
  }

  /** Digits, optionally a point and more digits; at least one digit overall. */
  function ParseMantissa(m: string): Option<real> {
    var d := IndexOfChar(m, '.');
    var whole := m[..d];
    var frac := if d < |m| then m[d + 1..] else [];
    if AllDigits(whole) && AllDigits(frac) && |whole| + |frac| >= 1 then
      Some(PointValue(whole, frac))
    else None
  }

  /** An optionally signed, non-empty run of digits. */
  function ParseExponent(x: string): Option<int> {
    if x != [] && x[0] == '-' then
      match ParseNat(x[1..]) case None => None case Some(n) => Some(-(n as int))
    else if x != [] && x[0] == '+' then
      match ParseNat(x[1..]) case None => None case Some(n) => Some(n)
    else
      match ParseNat(x) case None => None case Some(n) => Some(n)
  }

  function ParseUnsigned(s: string): Option<real> {
    var e := IndexOfExponent(s);
    match ParseMantissa(s[..e])
    case None => None
    case Some(m) =>
      if e == |s| then Some(m)
      else match ParseExponent(s[e + 1..])
        case None => None
        case Some(x) => Some(m * Scale(x))
  }

  /**
   * `Number(text)` for decimal literals; `None` where JavaScript gives NaN.
   * Blank text is 0, and text whose first visible character is not a digit,
   * a sign or a point is NaN.
   */
  function ToNumber(text: string): (r: Option<real>)
    ensures Trim(text) == [] ==> r == Some(0.0)
    ensures Trim(text) != [] && !StartsNumber(Trim(text)[0]) ==> r.None?
  {
    var s := Trim(text);
    if s == [] then Some(0.0)
    else if s[0] == '-' then
      match ParseUnsigned(s[1..]) case None => None case Some(v) => Some(-v)
    else if s[0] == '+' then ParseUnsigned(s[1..])
    else
      UnsignedNeedsDigitOrPoint(s);
      ParseUnsigned(s)
  }

  /** The characters a decimal literal may start with. */
  predicate StartsNumber(c: char) {
    IsDigit(c) || c == '.' || c == '+' || c == '-'
  }

  /** An unsigned literal must start with a digit or a point. */
  lemma UnsignedNeedsDigitOrPoint(s: string)
    ensures s != [] && !IsDigit(s[0]) && s[0] != '.' ==> ParseUnsigned(s).None?
  {
    if s != [] && !IsDigit(s[0]) && s[0] != '.' {
      var e := IndexOfExponent(s);
      var m := s[..e];
      if e > 0 {
        var d := IndexOfChar(m, '.');
        assert m[0] == s[0];
        assert d > 0;
        assert m[..d][0] == s[0];
      }
    }
  }

  lemma TrimUnpadded(s: string)
    requires s != [] && !IsWhite(s[0]) && !IsWhite(s[|s| - 1])
    ensures Trim(s) == s
  {
  }

  lemma NoMarks(s: string)
    requires AllDigits(s)
    ensures IndexOfChar(s, '.') == |s|
    ensures IndexOfExponent(s) == |s|
  {
  }

  lemma PointValueWhole(whole: string)
    requires AllDigits(whole)
    ensures PointValue(whole, []) == DigitsValue(whole) as real
  {
    assert DigitsValue([]) == 0;
    assert Pow10(0) == 1;
  }

  /** A run of digits alone is an integer mantissa. */
  lemma MantissaOfDigits(s: string)
    requires AllDigits(s) && |s| >= 1
    ensures ParseMantissa(s) == Some(DigitsValue(s) as real)
  {
    NoMarks(s);
    assert s[..|s|] == s;
    PointValueWhole(s);
  }

  /** `Number(String(n))` is `n`: the decimal form of a count reads back as itself. */
  lemma ToNumberOfNatString(n: nat)
    ensures ToNumber(NatToString(n)) == Some(n as real)
  {
    var s := NatToString(n);
    ToNumberUnsigned(s);
    NoMarks(s);
    ParseUnsignedNoExponent(s);
    MantissaOfDigits(s);
    DigitsValueOfNatToString(n);
  }

  /** `Number("-" + String(n))` is `-n`. */
  lemma ToNumberOfNegated(n: nat)
    ensures ToNumber("-" + NatToString(n)) == Some(-(n as real))
  {
    var s := NatToString(n);
    var t := "-" + s;
    TrimUnpadded(t);
    assert t[1..] == s;
    NoMarks(s);
    ParseUnsignedNoExponent(s);
    MantissaOfDigits(s);
    DigitsValueOfNatToString(n);
  }

  /** Without an exponent mark the whole literal is a mantissa. */
  lemma ParseUnsignedNoExponent(s: string)
    requires forall i :: 0 <= i < |s| ==> s[i] != 'e' && s[i] != 'E'
    ensures ParseUnsigned(s) == ParseMantissa(s)
  {
    assert IndexOfExponent(s) == |s|;
    assert s[..|s|] == s;
  }

  /** An unsigned literal that starts and ends with a digit or point is read unchanged. */
  lemma ToNumberUnsigned(s: string)
    requires s != [] && (IsDigit(s[0]) || s[0] == '.')
    requires IsDigit(s[|s| - 1]) || s[|s| - 1] == '.'
    ensures ToNumber(s) == ParseUnsigned(s)
  {
    TrimUnpadded(s);
  }

  lemma MantissaOfFraction(whole: string, frac: string)
    requires AllDigits(whole) && AllDigits(frac) && |whole| + |frac| >= 1
    ensures ParseMantissa(whole + "." + frac)
         == Some(PointValue(whole, frac))
  {
    var s := whole + ['.'] + frac;
    var d := IndexOfChar(s, '.');
    assert s[|whole|] == '.';
    assert d == |whole|;
    assert s[..d] == whole;
    assert s[d + 1..] == frac;
  }

  lemma FractionShape(whole: string, frac: string)
    requires AllDigits(whole) && AllDigits(frac) && |whole| + |frac| >= 1
    ensures var s := whole + "." + frac;
      && (IsDigit(s[0]) || s[0] == '.')
      && (IsDigit(s[|s| - 1]) || s[|s| - 1] == '.')
      && forall i :: 0 <= i < |s| ==> s[i] != 'e' && s[i] != 'E'
  {
    var s := whole + "." + frac;
    forall i | 0 <= i < |s| ensures IsDigit(s[i]) || s[i] == '.' {
      if i < |whole| { assert s[i] == whole[i]; }
      else if i > |whole| { assert s[i] == frac[i - |whole| - 1]; }
    }
  }

  /** A point-separated decimal `whole.frac` reads as `whole + frac / 10^|frac|`. */
  lemma ToNumberOfFraction(whole: string, frac: string)
    requires AllDigits(whole) && AllDigits(frac) && |whole| + |frac| >= 1
    ensures ToNumber(whole + "." + frac)
         == Some(PointValue(whole, frac))
  {
    var s := whole + "." + frac;
    FractionShape(whole, frac);
    ToNumberUnsigned(s);
    ParseUnsignedNoExponent(s);
    MantissaOfFraction(whole, frac);
  }

  /** Blank text reads as zero, as `Number("")` does. */
  lemma ToNumberOfBlank(k: nat)
    ensures ToNumber(Repeat(' ', k)) == Some(0.0)
  {
    var s := Repeat(' ', k);
    if k > 0 {
      BlankTrims(s);
    }
  }

  lemma {:induction false} BlankTrims(s: string)
    requires forall i :: 0 <= i < |s| ==> s[i] == ' '
    ensures TrimStart(s) == []
  {
    if s != [] {
      BlankTrims(s[1..]);
    }
  }

}

=== FILE: line_items.dfy ===
/**
 * The line-item list of the invoice form. The form recomputes every amount
 * when a quantity or rate changes and renumbers every row when the number of
 * rows changes. Both reactions are explicit functions; `Reactions` is what
 * actually runs after an edit, and `Settle` is the normal form they aim at:
 * amounts derived and serials positional.
 */
module LineItems {
  import opened Wrappers
  import opened Decimal
  import opened JsNumber
  import opened Types

  /** The amount reaction: each row's amount becomes quantity times rate. */
  function RecomputeAmounts(items: seq<Item>): (r: seq<Item>)
    ensures |r| == |items|
    ensures forall i :: 0 <= i < |r| ==>
      && r[i].amount == items[i].quantity * items[i].rate
      && r[i].serialNumber == items[i].serialNumber
      && r[i].description == items[i].description
      && r[i].quantity == items[i].quantity
      && r[i].rate == items[i].rate
  {
    seq(|items|, i requires 0 <= i < |items| => items[i].(amount := items[i].quantity * items[i].rate))
  }

  /** The serial reaction: the row at position `i` is numbered `String(i + 1)`. */
  function Renumber(items: seq<Item>): (r: seq<Item>)
    ensures |r| == |items|
    ensures forall i :: 0 <= i < |r| ==>
      && r[i].serialNumber == NatToString(i + 1)
      && r[i].description == items[i].description
      && r[i].quantity == items[i].quantity
      && r[i].rate == items[i].rate
      && r[i].amount == items[i].amount
  {
    seq(|items|, i requires 0 <= i < |items| => items[i].(serialNumber := NatToString(i + 1)))
  }

  /**
   * The normal form the two reactions aim at: every amount derived and every
   * serial positional, with nothing else a user entered changed. Which
   * reactions actually run after an event, and whose write is kept, is
   * `Reactions` below.
   */
  function Settle(items: seq<Item>): (r: seq<Item>)
    ensures WellFormed(r)
    ensures |r| == |items|
    ensures forall i :: 0 <= i < |items| ==>
      && r[i].description == items[i].description
      && r[i].quantity == items[i].quantity
      && r[i].rate == items[i].rate
  {
    Renumber(RecomputeAmounts(items))
  }

  /** Every row's amount is its quantity times its rate. */
  predicate AmountsDerived(items: seq<Item>) {
    forall i :: 0 <= i < |items| ==> items[i].amount == items[i].quantity * items[i].rate
  }

  /** The row at position `i` is numbered `String(i + 1)`. */
  predicate SerialsPositional(items: seq<Item>) {
    forall i :: 0 <= i < |items| ==> items[i].serialNumber == NatToString(i + 1)
  }

  /** The row invariant both reactions aim at. */
  predicate WellFormed(items: seq<Item>) {
    AmountsDerived(items) && SerialsPositional(items)
  }

  /** A list is left alone by settling exactly when it already satisfies the invariant. */
  lemma SettleFixesExactlyWellFormed(items: seq<Item>)
    ensures Settle(items) == items <==> WellFormed(items)
  {
    var s := Settle(items);
    if WellFormed(items) {
      assert forall i :: 0 <= i < |items| ==> s[i] == items[i];
    }
  }

  /** Settling twice is settling once. */
  lemma SettleIdempotent(items: seq<Item>)
    ensures Settle(Settle(items)) == Settle(items)
  {
    SettleFixesExactlyWellFormed(Settle(items));
  }

  /** `addItem`: append a blank row numbered one past the current length. */
  function AddItem(items: seq<Item>): (r: seq<Item>)
    ensures |r| == |items| + 1
    ensures r[..|items|] == items
    ensures r[|items|].serialNumber == NatToString(|items| + 1)
    ensures r[|items|].description == []
    ensures r[|items|].quantity == 0.0 && r[|items|].rate == 0.0 && r[|items|].amount == 0.0
  {
    items + [BlankItem(NatToString(|items| + 1))]
  }

  /** Appending keeps the invariant without any reaction having to run. */
  lemma AddItemKeepsWellFormed(items: seq<Item>)
    requires WellFormed(items)
    ensures WellFormed(AddItem(items))
  {
    var blank := BlankItem(NatToString(|items| + 1));
    assert AddItem(items) == items + [blank];
  }

  /** Where `Array.prototype.splice(index, 1)` starts for a list of length `len`. */
  function SpliceStart(index: int, len: nat): (k: nat)
    ensures k <= len
    ensures 0 <= index < len ==> k == index
    ensures -(len as int) <= index < 0 ==> k == len + index
    ensures index < -(len as int) ==> k == 0
    ensures index >= len ==> k == len
  {
    if index < 0 then (if len + index < 0 then 0 else len + index)
    else if index < len then index else len
  }

  /**
   * `removeItem(index)`: with more than one row, splice out the row at
   * `index` (negative positions count from the end, positions past the end
   * remove nothing); with one row or none, leave the list as it is.
   */
  function RemoveItem(items: seq<Item>, index: int): (r: seq<Item>)
    ensures |items| <= 1 ==> r == items
    ensures |items| > 1 && 0 <= index < |items| ==>
      |r| == |items| - 1
      && r[..index] == items[..index]
      && r[index..] == items[index + 1..]
    ensures |items| > 1 && index >= |items| ==> r == items
    ensures |items| > 1 && -|items| <= index < 0 ==>
      r == items[..|items| + index] + items[|items| + index + 1..]
    ensures |items| > 1 && index < -|items| ==> r == items[1..]
  {
    if |items| > 1 then
      var k := SpliceStart(index, |items|);
      if k < |items| then items[..k] + items[k + 1..] else items
    else items
  }

  /** Removal never empties a non-empty list, and drops at most one row. */
  lemma RemoveItemKeepsOne(items: seq<Item>, index: int)
    requires |items| >= 1
    ensures 1 <= |RemoveItem(items, index)|
    ensures |items| - 1 <= |RemoveItem(items, index)| <= |items|
  {
  }

  /** Removing row `index` takes exactly that row out of the multiset of rows. */
  lemma RemoveItemTakesOne(items: seq<Item>, index: nat)
    requires 1 < |items| && index < |items|
    ensures multiset(RemoveItem(items, index)) + multiset{items[index]} == multiset(items)
  {
    assert items == items[..index] + [items[index]] + items[index + 1..];
  }

  /** Rows after the removed one each move up by one position; those before stay put. */
  lemma RemoveItemShifts(items: seq<Item>, index: nat)
    requires 1 < |items| && index < |items|
    ensures forall j :: 0 <= j < |items| - 1 ==>
      RemoveItem(items, index)[j] == (if j < index then items[j] else items[j + 1])
  {
    var r := RemoveItem(items, index);
    forall j | 0 <= j < |items| - 1
      ensures r[j] == (if j < index then items[j] else items[j + 1])
    {
      if j < index {
        assert r[j] == r[..index][j];
      } else {
        assert r[j] == r[index..][j - index];
      }
    }
  }

  /**
   * After a removal from a settled list, renumbering alone settles it: the
   * rows are again numbered 1, 2, 3, ... and every amount is still derived.
   */
  lemma RemoveThenRenumber(items: seq<Item>, index: int)
    requires WellFormed(items)
    ensures Renumber(RemoveItem(items, index)) == Settle(RemoveItem(items, index))
    ensures WellFormed(Renumber(RemoveItem(items, index)))
  {
    var r := RemoveItem(items, index);
    RemoveItemKeepsDerived(items, index);
    RenumberWhenDerived(r);
  }

  /** The fields `handleItemChange` is called with. */
  datatype Field = SerialNumber | Description | Quantity | Rate

  /** Why an edit could not be applied. */
  datatype EditError =
    | NoSuchItem      // the position holds no row (JavaScript throws a TypeError)
    | NotANumber      // `Number(value)` would be NaN

  /**
   * `handleItemChange(index, field, value)`: set one field of one row. Numeric
   * fields store `Number(value)`; text fields store the value as given.
   */
  function HandleItemChange(items: seq<Item>, index: int, field: Field, value: string)
    : (r: Result<seq<Item>, EditError>)
    ensures r.Success? <==>
      0 <= index < |items| && ((field != Quantity && field != Rate) || ToNumber(value).Some?)
    ensures !(0 <= index < |items|) ==> r == Failure(NoSuchItem)
    ensures 0 <= index < |items| && (field == Quantity || field == Rate) && ToNumber(value).None? ==>
      r == Failure(NotANumber)
    ensures r.Success? ==>
      && 0 <= index < |r.value| == |items|
      && (forall j :: 0 <= j < |items| && j != index ==> r.value[j] == items[j])
      && r.value[index].amount == items[index].amount
      && (if field == SerialNumber then r.value[index].serialNumber == value
          else r.value[index].serialNumber == items[index].serialNumber)
      && (if field == Description then r.value[index].description == value
          else r.value[index].description == items[index].description)
      && (if field == Quantity then Some(r.value[index].quantity) == ToNumber(value)
          else r.value[index].quantity == items[index].quantity)
      && (if field == Rate then Some(r.value[index].rate) == ToNumber(value)
          else r.value[index].rate == items[index].rate)
  {
    if !(0 <= index < |items|) then Failure(NoSuchItem)
    else
      var it := items[index];
      match field
      case SerialNumber => Success(items[index := it.(serialNumber := value)])
      case Description => Success(items[index := it.(description := value)])
      case Quantity =>
        (match ToNumber(value)
         case None => Failure(NotANumber)
         case Some(v) => Success(items[index := it.(quantity := v)]))
      case Rate =>
        (match ToNumber(value)
         case None => Failure(NotANumber)
         case Some(v) => Success(items[index := it.(rate := v)]))
  }

  /** A numeric edit always lands on a valid row when the text is a decimal. */
  lemma QuantityEditSucceeds(items: seq<Item>, index: nat, n: nat)
    requires index < |items|
    ensures HandleItemChange(items, index, Quantity, NatToString(n)).Success?
    ensures HandleItemChange(items, index, Quantity, NatToString(n)).value[index].quantity == n as real
  {
    ToNumberOfNatString(n);
  }

  /** Setting a row's quantity and settling prices that row at the new quantity. */
  lemma SetQuantityThenSettle(items: seq<Item>, index: nat, v: real)
    requires index < |items|
    ensures var s := Settle(items[index := items[index].(quantity := v)]);
      WellFormed(s) && s[index].amount == v * items[index].rate
  {
  }

  /** What the amount reaction watches: the quantity and rate of every row, in order. */
  function AmountKey(items: seq<Item>): (k: seq<(real, real)>)
    ensures |k| == |items|
    ensures forall i :: 0 <= i < |items| ==> k[i] == (items[i].quantity, items[i].rate)
  {
    seq(|items|, i requires 0 <= i < |items| => (items[i].quantity, items[i].rate))
  }

  /**
   * The rows once React has run the reactions whose dependencies changed
   * from `before` to `after`: the amount reaction when some quantity or rate
   * changed, the serial reaction when the length changed. Both compute from
   * `after`; when both run, the serial reaction's list is written last and
   * is the one kept.
   */
  function Reactions(before: seq<Item>, after: seq<Item>): (r: seq<Item>)
    ensures |r| == |after|
    ensures forall i :: 0 <= i < |after| ==>
      && r[i].description == after[i].description
      && r[i].quantity == after[i].quantity
      && r[i].rate == after[i].rate
    ensures |before| != |after| ==> SerialsPositional(r)
    ensures |before| == |after| && AmountKey(before) != AmountKey(after) ==> AmountsDerived(r)
    ensures |before| != |after| ==> forall i :: 0 <= i < |after| ==> r[i].amount == after[i].amount
    ensures |before| == |after| ==>
      forall i :: 0 <= i < |after| ==> r[i].serialNumber == after[i].serialNumber
    ensures |before| == |after| && AmountKey(before) == AmountKey(after) ==> r == after
  {
    if |before| != |after| then Renumber(after)
    else if AmountKey(before) != AmountKey(after) then RecomputeAmounts(after)
    else after
  }

  /** With amounts already derived, renumbering alone settles the list. */
  lemma RenumberWhenDerived(items: seq<Item>)
    requires AmountsDerived(items)
    ensures Renumber(items) == Settle(items)
  {
    var a := Renumber(items);
    var b := Settle(items);
    assert forall i :: 0 <= i < |items| ==> a[i] == b[i];
  }

  /** With serials already positional, recomputing amounts alone settles the list. */
  lemma RecomputeWhenPositional(items: seq<Item>)
    requires SerialsPositional(items)
    ensures RecomputeAmounts(items) == Settle(items)
  {
    var a := RecomputeAmounts(items);
    var b := Settle(items);
    assert forall i :: 0 <= i < |items| ==> a[i] == b[i];
  }

  /**
   * After appending, both reactions fire: the length changed, and so did the
   * amount reaction's key, which gains a pair for the new row. The serial
   * reaction's list is the one kept, and it equals the appended list.
   */
  lemma ReactionsAfterAddItem(items: seq<Item>)
    requires WellFormed(items)
    ensures Reactions(items, AddItem(items)) == AddItem(items)
    ensures WellFormed(Reactions(items, AddItem(items)))
  {
    var r := AddItem(items);
    AddItemKeepsWellFormed(items);
    RenumberWhenDerived(r);
    SettleFixesExactlyWellFormed(r);
  }

  /** Cutting one row out keeps every remaining amount derived. */
  lemma SpliceKeepsDerived(items: seq<Item>, k: nat)
    requires AmountsDerived(items) && k < |items|
    ensures AmountsDerived(items[..k] + items[k + 1..])
  {
    var r := items[..k] + items[k + 1..];
    forall j | 0 <= j < |r| ensures r[j].amount == r[j].quantity * r[j].rate {
      if j < k {
        assert r[j] == items[j];
      } else {
        assert r[j] == items[j + 1];
      }
    }
  }

  lemma RemoveItemKeepsDerived(items: seq<Item>, index: int)
    requires AmountsDerived(items)
    ensures AmountsDerived(RemoveItem(items, index))
  {
    var k := SpliceStart(index, |items|);
    if |items| > 1 && k < |items| {
      SpliceKeepsDerived(items, k);
    }
  }

  /** After a removal from a well-formed list the reactions give the settled list: contiguous serials from 1, derived amounts. */
  lemma ReactionsAfterRemoveItem(items: seq<Item>, index: int)
    requires WellFormed(items)
    ensures Reactions(items, RemoveItem(items, index)) == Settle(RemoveItem(items, index))
    ensures WellFormed(Reactions(items, RemoveItem(items, index)))
  {
    var r := RemoveItem(items, index);
    RemoveItemKeepsDerived(items, index);
    if |r| != |items| {
      RenumberWhenDerived(r);
    } else {
      assert r == items;
      SettleFixesExactlyWellFormed(items);
    }
  }

  /** An edit that keeps every serial and amount is settled by whichever reactions fire. */
  lemma ReactionsAfterFieldEdit(before: seq<Item>, after: seq<Item>)
    requires WellFormed(before) && |after| == |before|
    requires forall j :: 0 <= j < |before| ==>
      after[j].serialNumber == before[j].serialNumber && after[j].amount == before[j].amount
    ensures Reactions(before, after) == Settle(after)
    ensures WellFormed(Reactions(before, after))
  {
    assert SerialsPositional(after);
    if AmountKey(before) != AmountKey(after) {
      RecomputeWhenPositional(after);
    } else {
      forall j | 0 <= j < |after| ensures after[j].amount == after[j].quantity * after[j].rate {
        assert AmountKey(before)[j] == AmountKey(after)[j];
      }
      SettleFixesExactlyWellFormed(after);
    }
  }

  /** After any edit `handleItemChange` makes to a well-formed list, the reactions restore the row invariant. */
  lemma ReactionsAfterItemChange(items: seq<Item>, index: int, field: Field, value: string)
    requires WellFormed(items) && field != SerialNumber
    requires HandleItemChange(items, index, field, value).Success?
    ensures var after := HandleItemChange(items, index, field, value).value;
      Reactions(items, after) == Settle(after) && WellFormed(Reactions(items, after))
  {
    var after := HandleItemChange(items, index, field, value).value;
    ReactionsAfterFieldEdit(items, after);
  }
}

=== FILE: numbering.dfy ===
/**
 * Invoice numbers: `DWPL/<year>/<sequence>`, where the sequence is one more
 * than the number of stored invoices, left-padded with zeros to four
 * characters and never shortened.
 */
module Numbering {
  import opened Wrappers
  import opened Decimal
  import Text
  import opened Types

  const Prefix: string := "DWPL"
  const SequenceWidth: nat := 4

  /** `String(count + 1).padStart(4, "0")`. */
  function SequenceText(count: nat): (s: string)
    ensures count + 1 < Pow10(SequenceWidth) ==> |s| == SequenceWidth
    ensures count + 1 >= Pow10(SequenceWidth) ==> s == NatToString(count + 1)
    ensures ParseNat(s) == Some(count + 1)
  {
    NatToStringLength(count + 1, SequenceWidth);
    PaddedRoundTrip(count + 1, SequenceWidth);
    PadStart(NatToString(count + 1), SequenceWidth, '0')
  }

  /**
   * The number the form proposes for the next invoice, given the stored count
   * and the current year: it reads back as that year and the count plus one.
   */
  function InvoiceNumber(count: nat, year: nat): (s: string)
    ensures ParseInvoiceNumber(s) == Some(InvoiceId(year, count + 1))
  {
    var y := NatToString(year);
    var q := SequenceText(count);
    assert Prefix + "/" + y + "/" + q == Prefix + "/" + (y + "/" + q);
    ParseComposed(y, q);
    DigitsValueOfNatToString(year);
    Prefix + "/" + y + "/" + q
  }

  /** The parts an invoice number is made of. */
  datatype InvoiceId = InvoiceId(year: nat, sequence: nat)

  /** Reads `DWPL/<digits>/<digits>` back into its year and sequence. */
  function ParseInvoiceNumber(s: string): Option<InvoiceId> {
    var head := Prefix + "/";
    if |s| < |head| || s[..|head|] != head then None
    else
      var rest := s[|head|..];
      var k := Text.IndexOfChar(rest, '/');
      if k == |rest| then None
      else match (ParseNat(rest[..k]), ParseNat(rest[k + 1..]))
        case (Some(y), Some(n)) => Some(InvoiceId(y, n))
        case _ => None
  }

  /** The first slash after a run of digits is the one right after it. */
  lemma SplitAtSlash(y: string, q: string)
    requires AllDigits(y)
    ensures Text.IndexOfChar(y + "/" + q, '/') == |y|
    ensures (y + "/" + q)[..|y|] == y
    ensures (y + "/" + q)[|y| + 1..] == q
  {
    var rest := y + "/" + q;
    assert rest[|y|] == '/';
    assert forall i :: 0 <= i < |y| ==> rest[i] == y[i];
  }

  /** A string of the form `DWPL/<rest>` parses by splitting `rest` at its first slash. */
  lemma ParseAfterHead(rest: string)
    ensures var k := Text.IndexOfChar(rest, '/');
      ParseInvoiceNumber(Prefix + "/" + rest)
      == if k == |rest| then None
         else match (ParseNat(rest[..k]), ParseNat(rest[k + 1..]))
           case (Some(y), Some(n)) => Some(InvoiceId(y, n))
           case _ => None
  {
    var s := Prefix + "/" + rest;
    assert s[..|Prefix + "/"|] == Prefix + "/";
    assert s[|Prefix + "/"|..] == rest;
  }

  /** `DWPL/<y>/<q>` with a digit run `y` reads as year `y` and sequence `q`. */
  lemma ParseComposed(y: string, q: string)
    requires AllDigits(y) && |y| >= 1
    ensures ParseInvoiceNumber(Prefix + "/" + (y + "/" + q))
         == if ParseNat(q).Some? then Some(InvoiceId(DigitsValue(y), ParseNat(q).value)) else None
  {
    ParseAfterHead(y + "/" + q);
    SplitAtSlash(y, q);
  }

  /** Distinct counts or years never produce the same number. */
  lemma InvoiceNumberInjective(c1: nat, y1: nat, c2: nat, y2: nat)
    ensures InvoiceNumber(c1, y1) == InvoiceNumber(c2, y2) <==> c1 == c2 && y1 == y2
  {
    if InvoiceNumber(c1, y1) == InvoiceNumber(c2, y2) {
      assert ParseInvoiceNumber(InvoiceNumber(c1, y1)) == Some(InvoiceId(y1, c1 + 1));
    }
  }

  /** Up to 9999 invoices the sequence is exactly four digits; beyond, it grows and is never cut. */
  lemma SequenceWidthRule(count: nat)
    ensures count + 1 < 10000 ==> |SequenceText(count)| == 4 && AllDigits(SequenceText(count))
    ensures count + 1 >= 10000 ==> |SequenceText(count)| > 4 && SequenceText(count) == NatToString(count + 1)
  {
    assert Pow10(SequenceWidth) == 10000;
    NatToStringLength(count + 1, 4);
  }

  lemma YearText()
    ensures NatToString(2025) == "2025"
  {
  }

  lemma SequenceExamples()
    ensures SequenceText(0) == "0001"
    ensures SequenceText(41) == "0042"
    ensures SequenceText(9999) == "10000"
  {
    assert SequenceText(0) == "0001";
    assert SequenceText(41) == "0042";
    assert NatToString(10000) == "10000";
  }

  /** An invoice number is the prefix, the year and the sequence, joined by slashes. */
  lemma InvoiceNumberText(count: nat, year: nat, text: string)
    requires text == Prefix + "/" + NatToString(year) + "/" + SequenceText(count)
    ensures InvoiceNumber(count, year) == text
  {
  }

  /** `year` is a parameter fixed by `requires`, so the literal year does not make the verifier unfold `InvoiceNumber`. */
  lemma FirstOfYear(year: nat)
    requires year == 2025
    ensures InvoiceNumber(0, year) == "DWPL/2025/0001"
  {
    FirstOfYearText(year);
    InvoiceNumberText(0, year, "DWPL/2025/0001");
  }

  /** The expected text, assembled without `InvoiceNumber`; `year` is fixed by `requires` so the literal is not unfolded eagerly. */
  lemma FirstOfYearText(year: nat)
    requires year == 2025
    ensures Prefix + "/" + NatToString(year) + "/" + SequenceText(0) == "DWPL/2025/0001"
  {
    YearText();
    SequenceExamples();
    assert Prefix + "/" + NatToString(year) + "/" + SequenceText(0) == "DWPL" + "/" + "2025" + "/" + "0001";
  }

  /** `year` is a parameter fixed by `requires`, so the literal year does not make the verifier unfold `InvoiceNumber`. */
  lemma FortySecond(year: nat)
    requires year == 2025
    ensures InvoiceNumber(41, year) == "DWPL/2025/0042"
  {
    FortySecondText(year);
    InvoiceNumberText(41, year, "DWPL/2025/0042");
  }

  /** The expected text, assembled without `InvoiceNumber`; `year` is fixed by `requires` so the literal is not unfolded eagerly. */
  lemma FortySecondText(year: nat)
    requires year == 2025
    ensures Prefix + "/" + NatToString(year) + "/" + SequenceText(41) == "DWPL/2025/0042"
  {
    YearText();
    SequenceExamples();
    assert Prefix + "/" + NatToString(year) + "/" + SequenceText(41) == "DWPL" + "/" + "2025" + "/" + "0042";
  }

  /** `year` is a parameter fixed by `requires`, so the literal year does not make the verifier unfold `InvoiceNumber`. */
  lemma PastFourDigits(year: nat)
    requires year == 2025
    ensures InvoiceNumber(9999, year) == "DWPL/2025/10000"
  {
    PastFourDigitsText(year);
    InvoiceNumberText(9999, year, "DWPL/2025/10000");
  }

  /** The expected text, assembled without `InvoiceNumber`; `year` is fixed by `requires` so the literal is not unfolded eagerly. */
  lemma PastFourDigitsText(year: nat)
    requires year == 2025
    ensures Prefix + "/" + NatToString(year) + "/" + SequenceText(9999) == "DWPL/2025/10000"
  {
    YearText();
    SequenceExamples();
    assert Prefix + "/" + NatToString(year) + "/" + SequenceText(9999) == "DWPL" + "/" + "2025" + "/" + "10000";
  }

  /**
   * The first invoice of 2025, the forty-second, and the first past the
   * four-digit range. `year` is a parameter fixed by `requires`, so the literal
   * year does not make the verifier unfold `InvoiceNumber` eagerly.
   */
  lemma NumberingExamples(year: nat)
    requires year == 2025
    ensures InvoiceNumber(0, year) == "DWPL/2025/0001"
    ensures InvoiceNumber(41, year) == "DWPL/2025/0042"
    ensures InvoiceNumber(9999, year) == "DWPL/2025/10000"
  {
    FirstOfYear(year);
    FortySecond(year);
    PastFourDigits(year);
  }

  /**
   * `fetchInvoiceCount`: with the count the server returned, the form takes
   * the next invoice number; when the request fails the form is left as it was.
   */
  function ApplyInvoiceCount(form: Invoice, response: Option<nat>, year: nat): (r: Invoice)
    ensures r.address == form.address && r.items == form.items
    ensures r.subTotal == form.subTotal && r.cgst == form.cgst && r.sgst == form.sgst
    ensures r.igst == form.igst && r.grossAmount == form.grossAmount
    ensures response.None? ==> r.invoiceNumber == form.invoiceNumber
    ensures response.Some? ==> r.invoiceNumber == InvoiceNumber(response.value, year)
    ensures response.Some? ==>
      ParseInvoiceNumber(r.invoiceNumber) == Some(InvoiceId(year, response.value + 1))
  {
    match response
    case None => form
    case Some(count) =>
      var number := InvoiceNumber(count, year);
      assert ParseInvoiceNumber(number) == Some(InvoiceId(year, count + 1));
      Invoice(number, form.address, form.items,
              form.subTotal, form.cgst, form.sgst, form.igst, form.grossAmount)
  }
}

=== FILE: tax.dfy ===
/**
 * The totals the form computes before posting: the subtotal of quantity times
 * rate over all rows, and either CGST plus SGST (an address in the home
 * state) or IGST (any other address), with money as exact rationals.
 */
module Tax {
  import opened Text
  import opened Types
  import LineItems

  /** Lower-case text whose presence in the address marks the home state. */
  const HomeToken: string := "bihar"
  /** Rate of CGST and, separately, of SGST inside the home state. */
  const LocalRate: real := 0.09
  /** Rate of IGST outside the home state. */
  const InterstateRate: real := 0.18

  datatype Totals = Totals(subTotal: real, cgst: real, sgst: real, igst: real, grossAmount: real)

  function LineTotal(it: Item): real {
    it.quantity * it.rate
  }

  /** The reference sum of quantity times rate over the rows. */
  function LineSum(items: seq<Item>): real {
    if items == [] then 0.0 else LineTotal(items[0]) + LineSum(items[1..])
  }

  /** The sum of the stored `amount` fields. */
  function AmountSum(items: seq<Item>): real {
    if items == [] then 0.0 else items[0].amount + AmountSum(items[1..])
  }

  /** `items.reduce((sum, item) => sum + item.quantity * item.rate, acc)`, left to right. */
  function Reduce(acc: real, items: seq<Item>): (r: real)
    ensures r == acc + LineSum(items)
    decreases items
  {
    if items == [] then acc else Reduce(acc + LineTotal(items[0]), items[1..])
  }

  /** The subtotal as the form computes it, from quantity and rate and not from the stored amount. */
  function SubTotal(items: seq<Item>): (r: real)
    ensures r == LineSum(items)
  {
    Reduce(0.0, items)
  }

  lemma {:induction false} LineSumAppend(a: seq<Item>, b: seq<Item>)
    ensures LineSum(a + b) == LineSum(a) + LineSum(b)
  {
    if a != [] {
      assert (a + b)[1..] == a[1..] + b;
      LineSumAppend(a[1..], b);
    } else {
      assert a + b == b;
    }
  }

  /** Rows that agree on quantity and rate have the same subtotal, whatever their amounts say. */
  lemma {:induction false} SubTotalIgnoresAmounts(a: seq<Item>, b: seq<Item>)
    requires |a| == |b|
    requires forall i :: 0 <= i < |a| ==> a[i].quantity == b[i].quantity && a[i].rate == b[i].rate
    ensures SubTotal(a) == SubTotal(b)
  {
    LineSumPointwise(a, b);
  }

  lemma {:induction false} LineSumPointwise(a: seq<Item>, b: seq<Item>)
    requires |a| == |b|
    requires forall i :: 0 <= i < |a| ==> a[i].quantity == b[i].quantity && a[i].rate == b[i].rate
    ensures LineSum(a) == LineSum(b)
  {
    if a != [] {
      LineSumPointwise(a[1..], b[1..]);
    }
  }

  /** Once amounts are derived, the subtotal equals the sum of the stored amounts. */
  lemma {:induction false} SubTotalOfDerivedAmounts(items: seq<Item>)
    requires LineItems.AmountsDerived(items)
    ensures SubTotal(items) == AmountSum(items)
  {
    AmountsAreLineTotals(items);
  }

  lemma {:induction false} AmountsAreLineTotals(items: seq<Item>)
    requires forall i :: 0 <= i < |items| ==> items[i].amount == items[i].quantity * items[i].rate
    ensures AmountSum(items) == LineSum(items)
  {
    if items != [] {
      AmountsAreLineTotals(items[1..]);
    }
  }

  /** Appending a blank row leaves the subtotal unchanged. */
  lemma SubTotalAddItem(items: seq<Item>)
    ensures SubTotal(LineItems.AddItem(items)) == SubTotal(items)
  {
    var r := LineItems.AddItem(items);
    assert r == items + [r[|items|]];
    LineSumAppend(items, [r[|items|]]);
  }

  /** Removing a row lowers the subtotal by exactly that row's line total. */
  lemma SubTotalRemoveItem(items: seq<Item>, index: nat)
    requires 1 < |items| && index < |items|
    ensures SubTotal(LineItems.RemoveItem(items, index)) == SubTotal(items) - LineTotal(items[index])
  {
    var r := LineItems.RemoveItem(items, index);
    assert r == items[..index] + items[index + 1..];
    assert items == items[..index] + ([items[index]] + items[index + 1..]);
    LineSumAppend(items[..index], items[index + 1..]);
    LineSumAppend(items[..index], [items[index]] + items[index + 1..]);
    LineSumAppend([items[index]], items[index + 1..]);
  }

  /** The jurisdiction test: the lower-cased address contains the home-state token. */
  function IsHomeState(address: string): (home: bool)
    ensures home <==> Occurs(ToLower(address), HomeToken)
  {
    Includes(ToLower(address), HomeToken)
  }

  /** Case does not matter: an address and its lower-case form fall on the same side. */
  lemma IsHomeStateCaseInsensitive(address: string)
    ensures IsHomeState(address) == IsHomeState(ToLower(address))
  {
    ToLowerIdempotent(address);
  }

  /** `calculateAmounts`: the subtotal and the tax split for these rows and this address. */
  function ComputeTotals(items: seq<Item>, address: string): (t: Totals)
    ensures t.subTotal == LineSum(items)
    ensures IsHomeState(address) ==>
      t.cgst == t.subTotal * LocalRate && t.sgst == t.subTotal * LocalRate && t.igst == 0.0
    ensures !IsHomeState(address) ==>
      t.cgst == 0.0 && t.sgst == 0.0 && t.igst == t.subTotal * InterstateRate
    ensures t.grossAmount == t.subTotal + t.cgst + t.sgst + t.igst
  {
    var subTotal := SubTotal(items);
    var home := IsHomeState(address);
    var cgst := if home then subTotal * LocalRate else 0.0;
    var sgst := if home then subTotal * LocalRate else 0.0;
    var igst := if home then 0.0 else subTotal * InterstateRate;
    Totals(subTotal, cgst, sgst, igst, subTotal + cgst + sgst + igst)
  }

  /** Either way the gross is the subtotal plus 18%: the address moves tax between heads, never the total. */
  lemma GrossIsEighteenPercentMore(items: seq<Item>, address: string)
    ensures ComputeTotals(items, address).grossAmount == 1.18 * LineSum(items)
  {
  }

  lemma GrossIndependentOfAddress(items: seq<Item>, a: string, b: string)
    ensures ComputeTotals(items, a).grossAmount == ComputeTotals(items, b).grossAmount
    ensures ComputeTotals(items, a).cgst + ComputeTotals(items, a).sgst + ComputeTotals(items, a).igst
         == ComputeTotals(items, b).cgst + ComputeTotals(items, b).sgst + ComputeTotals(items, b).igst
  {
    GrossIsEighteenPercentMore(items, a);
    GrossIsEighteenPercentMore(items, b);
  }

  /** CGST plus SGST and IGST are never both non-zero; with a non-zero subtotal exactly one is. */
  lemma TaxHeadsExclusive(items: seq<Item>, address: string)
    ensures var t := ComputeTotals(items, address);
      !(t.cgst + t.sgst != 0.0 && t.igst != 0.0)
      && (t.subTotal != 0.0 ==> (t.cgst + t.sgst != 0.0 <==> t.igst == 0.0))
      && (t.cgst + t.sgst != 0.0 ==> IsHomeState(address))
  {
  }

  /** An empty list of rows is not an error: every total is zero. */
  lemma EmptyItemsTotalZero(address: string)
    ensures ComputeTotals([], address) == Totals(0.0, 0.0, 0.0, 0.0, 0.0)
  {
  }

  /** `calculateAmounts` as a state update: only the five totals of the form change. */
  function CalculateAmounts(form: Invoice): (r: Invoice)
    ensures r.invoiceNumber == form.invoiceNumber && r.address == form.address && r.items == form.items
    ensures var t := ComputeTotals(form.items, form.address);
      r.subTotal == t.subTotal && r.cgst == t.cgst && r.sgst == t.sgst
      && r.igst == t.igst && r.grossAmount == t.grossAmount
  {
    var t := ComputeTotals(form.items, form.address);
    form.(subTotal := t.subTotal, cgst := t.cgst, sgst := t.sgst, igst := t.igst, grossAmount := t.grossAmount)
  }

  /** Any address containing the word in any letter case is in the home state. */
  lemma HomeTokenAnywhere(before: string, word: string, after: string)
    requires ToLower(word) == HomeToken
    ensures IsHomeState(before + word + after)
  {
    ToLowerAppend(before + word, after);
    ToLowerAppend(before, word);
    IncludesInContext(ToLower(before), HomeToken, ToLower(after));
  }

  lemma CapitalisedToken()
    ensures ToLower("Bihar") == HomeToken
  {
  }

  lemma IncludesExampleElsewhere()
    ensures !Includes("delhi", "bihar")
  {
    assert "delhi"[..5][0] == 'd' && "bihar"[0] == 'b';
    assert "delhi"[1..] == "elhi";
    assert !Includes("elhi", "bihar");
  }

  lemma LowerExampleElsewhere()
    ensures ToLower("Delhi") == "delhi"
  {
  }

  lemma ExampleRows()
    ensures LineSum([Item("1", "a", 2.0, 100.0, 0.0), Item("2", "b", 1.0, 50.0, 0.0)]) == 250.0
  {
  }

  lemma ExampleAddressIsHome(address: string)
    requires address == "Patna, Bihar"
    ensures IsHomeState(address)
  {
    CapitalisedToken();
    HomeTokenAnywhere("Patna, ", "Bihar", "");
    assert "Patna, " + "Bihar" + "" == address;
  }

  /** A home-state address: CGST and SGST of 22.5 each on a subtotal of 250. */
  lemma HomeStateExample(address: string)
    requires address == "Patna, Bihar"
    ensures ComputeTotals([Item("1", "a", 2.0, 100.0, 0.0), Item("2", "b", 1.0, 50.0, 0.0)], address)
         == Totals(250.0, 22.5, 22.5, 0.0, 295.0)
  {
    ExampleRows();
    ExampleAddressIsHome(address);
  }

  lemma ExampleAddressIsElsewhere(address: string)
    requires address == "Delhi"
    ensures !IsHomeState(address)
  {
    LowerExampleElsewhere();
    IncludesExampleElsewhere();
  }

  /** An address outside the home state: IGST of 45 on the same rows, and the same gross. */
  lemma InterstateExample(address: string)
    requires address == "Delhi"
    ensures ComputeTotals([Item("1", "a", 2.0, 100.0, 0.0), Item("2", "b", 1.0, 50.0, 0.0)], address)
         == Totals(250.0, 0.0, 0.0, 45.0, 295.0)
  {
    ExampleRows();
    ExampleAddressIsElsewhere(address);
  }
}

=== FILE: text.dfy ===
/**
 * String operations: `toLowerCase` (restricted to ASCII letters), `indexOf`
 * for one character, and `includes` (substring search).
 */
module Text {

  function LowerChar(c: char): (l: char)
    ensures 'A' <= c <= 'Z' ==> l as int == c as int + 32
    ensures !('A' <= c <= 'Z') ==> l == c
  {
    if 'A' <= c <= 'Z' then (c as int + 32) as char else c
  }

  /** `s.toLowerCase()` on ASCII: upper-case letters become lower-case, all else is kept. */
  function ToLower(s: string): (r: string)
    ensures |r| == |s|
    ensures forall i :: 0 <= i < |s| ==> r[i] == LowerChar(s[i])
  {
    if s == [] then [] else [LowerChar(s[0])] + ToLower(s[1..])
  }

  /** Lower-casing twice is lower-casing once. */
  lemma ToLowerIdempotent(s: string)
    ensures ToLower(ToLower(s)) == ToLower(s)
  {
  }

  lemma ToLowerAppend(a: string, b: string)
    ensures ToLower(a + b) == ToLower(a) + ToLower(b)
  {
  }

  /** Position of the first `c` in `s`, or `|s|` when there is none. */
  function IndexOfChar(s: string, c: char): (k: nat)
    ensures k <= |s|
    ensures k < |s| ==> s[k] == c
    ensures forall i :: 0 <= i < k ==> s[i] != c
  {
    if s == [] then 0 else if s[0] == c then 0 else 1 + IndexOfChar(s[1..], c)
  }

  /** `needle` occurs in `s` starting at position `i`. */
  predicate OccursAt(s: string, needle: string, i: nat) {
    i + |needle| <= |s| && s[i..i + |needle|] == needle
  }

  /** `needle` occurs in `s` at some position. */
  ghost predicate Occurs(s: string, needle: string) {
    exists i: nat :: OccursAt(s, needle, i)
  }

  /**
   * `s.includes(needle)`: a left-to-right scan for the first occurrence. It
   * succeeds exactly when the needle occurs at some position.
   */
  function Includes(s: string, needle: string): (found: bool)
    ensures found <==> Occurs(s, needle)
  {
    if |s| < |needle| then false
    else if s[..|needle|] == needle then
      assert OccursAt(s, needle, 0);
      true
    else
      OccursPastFirst(s, needle);
      Includes(s[1..], needle)
  }

  /** An occurrence in the tail is an occurrence one position further on in the whole. */
  lemma OccursInTail(s: string, needle: string, j: nat)
    requires |s| >= 1 && OccursAt(s[1..], needle, j)
    ensures OccursAt(s, needle, j + 1)
  {
    assert s[j + 1..j + 1 + |needle|] == s[1..][j..j + |needle|];
  }

  /** An occurrence past the first position is an occurrence in the tail. */
  lemma OccursPastHead(s: string, needle: string, i: nat)
    requires i >= 1 && OccursAt(s, needle, i)
    ensures OccursAt(s[1..], needle, i - 1)
  {
    assert s[1..][i - 1..i - 1 + |needle|] == s[i..i + |needle|];
  }

  /** When the needle is not at the front, it occurs in `s` exactly when it occurs in the tail. */
  lemma OccursPastFirst(s: string, needle: string)
    requires |s| >= |needle| && s[..|needle|] != needle
    ensures Occurs(s, needle) <==> Occurs(s[1..], needle)
  {
    if exists j: nat :: OccursAt(s[1..], needle, j) {
      var j: nat :| OccursAt(s[1..], needle, j);
      OccursInTail(s, needle, j);
    }
    if exists i: nat :: OccursAt(s, needle, i) {
      var i: nat :| OccursAt(s, needle, i);
      assert i != 0;
      OccursPastHead(s, needle, i);
    }
  }

  /** Anything containing the needle still contains it with text added around it. */
  lemma IncludesInContext(before: string, needle: string, after: string)
    ensures Includes(before + needle + after, needle)
  {
    var s := before + needle + after;
    assert s[|before|..|before| + |needle|] == needle;
    assert OccursAt(s, needle, |before|);
  }
}

=== FILE: types.dfy ===
/** The records the form edits and posts: one line item, and the invoice form state. */
module Types {

  /** One line of the invoice. Quantities and money are exact rationals. */
  datatype Item = Item(
    serialNumber: string,
    description: string,
    quantity: real,
    rate: real,
    amount: real)

  /** The invoice as the form holds it and posts it (the optional `date` is never set by the form). */
  datatype Invoice = Invoice(
    invoiceNumber: string,
    address: string,
    items: seq<Item>,
    subTotal: real,
    cgst: real,
    sgst: real,
    igst: real,
    grossAmount: real)

  /** The row `addItem` appends and the form starts with: empty text and zero numbers. */
  function BlankItem(serial: string): (it: Item)
    ensures it.serialNumber == serial && it.description == []
    ensures it.quantity == 0.0 && it.rate == 0.0 && it.amount == 0.0
  {
    Item(serial, "", 0.0, 0.0, 0.0)
  }

  /** The form's state on load and after a successful submission. */
  function InitialForm(): (f: Invoice)
    ensures f.invoiceNumber == [] && f.address == []
    ensures f.items == [BlankItem("1")]
    ensures f.subTotal == 0.0 && f.cgst == 0.0 && f.sgst == 0.0 && f.igst == 0.0 && f.grossAmount == 0.0
  {
    Invoice("", "", [BlankItem("1")], 0.0, 0.0, 0.0, 0.0, 0.0)
  }
}

=== FILE: wrappers.dfy ===
/** Failure-carrying result types shared by the invoicing model. */
module Wrappers {

  /** A value that may be absent. */
  datatype Option<+T> = None | Some(value: T)

  /** Either a computed value or the reason it could not be computed. */
  datatype Result<+R, +E> = Success(value: R) | Failure(error: E)

  /** A step that either passes or fails with a reason and carries no value. */
  datatype Outcome<+E> = Pass | Fail(error: E)
}
